=== FILE: README.md ===
# AODV control engine, modelled in Dafny

This project models the control engine of the Contiki-NG AODV routing
module (`os/net/routing/aodv/aodv-routing.c`). AODV is the on-demand
distance-vector protocol of RFC 3561. The engine keeps a few file-scope
variables:

- two 32-bit counters, the request id `rreq_id` and the own sequence number `my_hseqno`;
- a single pending-command slot (`NONE`, `SEND_RREQ`, `SEND_RERR`);
- the staged addresses `rreq_addr` and `bad_dest`, and `bad_seqno`;
- the rate-limit timer `next_time`;
- the routing table.

It offers three entry points to the rest of the stack:

- `aodv_request_route_to` answers from the table or stages a route request;
- `aodv_bad_dest` stages a route error;
- `aodv_send_rreq`, `aodv_send_rrep` and `aodv_send_rerr` build the three control messages.

The AODV process carries out the staged command on its next poll turn.
When new UDP data arrives, the process checks it with the file-local
dispatcher `handle_incoming_packet` and its three per-message handlers.
When the process exits, it clears the slot and flushes the table.

The model is a functional state machine. `AodvRouting.State` is an
immutable record of the engine's variables. Each operation is a pure
function from a state (plus arguments and a clock reading) to a new state
and the datagrams sent. Counters wrap modulo 2^32. `SCMP32` is the
wrap-around comparison of section 6.1 of RFC 3561.

| file | module | what it holds |
|---|---|---|
| `uip.dfy` | `Optional`, `Uip` | option type; bytes, `u32`, IPv6 addresses, `uip_htonl` on a little-endian host |
| `seqno.dfy` | `SeqNo` | `SCMP32` and its properties |
| `aodv_rt.dfy` | `AodvRt` | the routing table as the engine sees it |
| `aodv_msg.dfy` | `AodvMsg` | RREQ/RREP/RERR structs, their memory images, reading a buffer through a struct pointer |
| `aodv_input.dfy` | `AodvInput` | the inbound dispatcher and handlers |
| `aodv_routing.dfy` | `AodvRouting` | engine state, message builders, request gate, error staging, poll step, exit handler |
| `aodv_process.dfy` | `AodvProcess` | the process as an event loop; lemmas over whole runs |
| `aodv_transit.dfy` | `AodvTransit` | what a peer running the same code makes of the datagrams sent |

Modelling choices:

- **Message fields.** A 32-bit message field holds the word as it sits in
  the C struct. The engine stores request ids, sequence numbers and
  lifetimes already passed through `uip_htonl`. `AodvMsg.Encode` is the
  struct's memory image on a little-endian host, so these fields read
  big-endian on the wire.
- **Timer.** The timer is a deadline on a natural-number clock. The C timer
  is static and zero-initialised, so it starts expired.
- **Routing table.** The table lives in `aodv-rt.c`, which is not part of
  this model. It is a map from address to an entry carrying `hseqno` and
  `is_bad`. `Lookup` (for `aodv_rt_lookup`) returns an entry only when it is
  not marked bad. Any entry it returns is also the one `LookupAny` (for
  `aodv_rt_lookup_any`) returns. `aodv_rt_lru` is recorded as a touch and
  changes no entry. After `aodv_rt_flush_all`, no lookup finds anything.
- **Header constants.** `aodv-defs.h` and `aodv-conf.h` are not part of
  this model. The message types are 1, 2 and 3, as in RFC 3561. The
  unknown-sequence-number flag is 0x08, the U bit of section 5.1 of RFC 3561.
  The struct sizes (common header 1, RREQ 48, RREP 44, RERR 24 bytes) come
  from the field lists with 16-byte addresses. `CLOCK_SECOND` is 128 and
  `AODV_ROUTE_TIMEOUT` is 3000. No proof depends on the value of
  `AODV_ROUTE_TIMEOUT`; the proofs need only `CLOCK_SECOND >= 8`, so that the
  rate-limit interval `CLOCK_SECOND/8` is positive.
- **`uip_datalen()` and `uip_len`.** In uIP, `uip_datalen()` is `uip_len`.
  So the RERR handler's length check on `uip_len` is the same check the other
  handlers make.

Points where the code behaves in ways one might not expect; the model follows the code:

- `aodv_request_route_to` checks the rate-limit timer before it checks the
  pending command.
- A RREQ carries the request id and own sequence number as they were before
  the send. Both counters are incremented afterwards. Section 6.3 of RFC 3561
  has the originator increment its sequence number and RREQ id before
  putting them in the message.
- An existing entry whose sequence number is 0 also gets the
  "unknown sequence number" flag.
- The inbound handlers do nothing beyond validation. The RERR handler
  updates no table entry.
- Under the wrapping reading of `SCMP32` (`SeqNo.Scmp32`, the comparison of
  section 6.1 of RFC 3561), the tie is at a distance of exactly 2^31: for
  such a pair neither number is fresher (`SeqNo.ScmpHalfwayTie`), and
  0x80000000 is fresher than 0x7FFFFFFF, by one. The macro as written
  overflows in both orders on (0x80000000, 0x7FFFFFFF), and in one of the
  two orders on a tie pair (the Findings row for line 73;
  `SeqNo.Scmp32AsWrittenOverflows`).

## Model

| member | source | states |
|---|---|---|
| `SeqNo.ToInt32` | os/net/routing/aodv/aodv-routing.c:73 | the `(int32_t)` cast of a 32-bit pattern is the one value in the `int32_t` range congruent to it modulo 2^32 |
| `SeqNo.Scmp32` | os/net/routing/aodv/aodv-routing.c:71-73 | the comparison yields the one `int32_t` value congruent to `a - b` modulo 2^32 |
| `SeqNo.ScmpPositiveIffAhead` | os/net/routing/aodv/aodv-routing.c:71-73 | `SCMP32(a, b) > 0` exactly when `a` lies 1 to 2^31-1 steps ahead of `b` in the wrapping sequence space |
| `SeqNo.ScmpSelf` | os/net/routing/aodv/aodv-routing.c:73 | a number compares equal to itself |
| `SeqNo.ScmpAcrossWrap` | os/net/routing/aodv/aodv-routing.c:71-73 | 2 is fresher than 0xFFFFFFFE and not the other way round |
| `SeqNo.ScmpAntisymmetric` | os/net/routing/aodv/aodv-routing.c:73 | away from the half-way tie, swapping the arguments negates the result, so of two distinct numbers exactly one is fresher |
| `SeqNo.ScmpHalfwayTie` | os/net/routing/aodv/aodv-routing.c:73 | two numbers 2^31 apart each compare negative against the other, so neither is fresher |
| `SeqNo.ScmpSuccessor` | os/net/routing/aodv/aodv-routing.c:162-169 | a counter after `+= 1`, across the wrap too, compares exactly 1 above its old value |
| `SeqNo.ScmpOneIsSuccessor` | os/net/routing/aodv/aodv-routing.c:73 | a comparison result of exactly 1 means the first number is the successor of the second |
| `SeqNo.ScmpAgreesBelowHalf` | os/net/routing/aodv/aodv-routing.c:73 | for numbers below 2^31, the comparison is the plain difference |
| `SeqNo.Scmp32AsWritten` | os/net/routing/aodv/aodv-routing.c:73 | the macro's exact signed difference is congruent to `a - b` but can leave the `int32_t` range |
| `SeqNo.Scmp32AsWrittenOverflows` | os/net/routing/aodv/aodv-routing.c:73 | `SCMP32(0x80000000, 1)` computes `INT32_MIN - 1`, a signed overflow, where the wrapping reading gives `INT32_MAX`; `SCMP32(0x80000000, 0x7FFFFFFF)` computes `INT32_MIN - INT32_MAX`, where the wrapping reading gives 1 |
| `SeqNo.Scmp32AsWrittenAgrees` | os/net/routing/aodv/aodv-routing.c:73 | when the macro does not overflow, it computes the same value as the wrapping comparison |
| `Uip.Add32` | os/net/routing/aodv/aodv-routing.c:162 | `+= 1` on a `uint32_t` is addition reduced modulo 2^32 |
| `Uip.Htonl` | os/net/routing/aodv/aodv-routing.c:90-91 | the converted word is stored in memory as the big-endian image of the host-order value |
| `Uip.HtonlInvolution` | os/net/routing/aodv/aodv-routing.c:160-163 | converting twice gives the original word back |
| `Uip.HtonlZero` | os/net/routing/aodv/aodv-routing.c:150-151 | a converted word is zero exactly when the host-order value is zero |
| `AodvRt.LookupAny` | os/net/routing/aodv/aodv-routing.c:87 | finds the entry for the host whenever the table holds one |
| `AodvRt.Lookup` | os/net/routing/aodv/aodv-routing.c:361 | a usable entry is also the one found by `aodv_rt_lookup_any`; it is never marked bad; an entry not marked bad is usable |
| `AodvRt.Lru` | os/net/routing/aodv/aodv-routing.c:366 | the touch is recorded and no entry changes |
| `AodvRt.MarkBad` | os/net/routing/aodv/aodv-routing.c:342 | sets `is_bad` on the host's entry only; every other entry and the key set are unchanged |
| `AodvRt.FlushAll` | os/net/routing/aodv/aodv-routing.c:466 | afterwards no address has an entry |
| `AodvMsg.Encode` | os/net/routing/aodv/aodv-routing.c:172 | the image handed to the transport is `sizeof` the struct and starts with the message's type byte |
| `AodvMsg.ViewRreq` | os/net/routing/aodv/aodv-routing.c:237 | the RREQ read through the struct pointer has, after its type byte, exactly the buffer's first 48 bytes as its memory image |
| `AodvMsg.ViewRrep` | os/net/routing/aodv/aodv-routing.c:264 | the RREP read through the struct pointer has, after its type byte, exactly the buffer's first 44 bytes as its memory image |
| `AodvMsg.ViewRerr` | os/net/routing/aodv/aodv-routing.c:287 | the RERR read through the struct pointer has, after its type byte, exactly the buffer's first 24 bytes as its memory image |
| `AodvMsg.ViewEncode` | os/net/routing/aodv/aodv-routing.c:237 | reading a sent image (plus any trailing bytes) through its struct pointer gives back the message that was sent |
| `AodvMsg.EncodeView` | os/net/routing/aodv/aodv-routing.c:264 | a struct read from a long-enough buffer of matching type re-encodes to the buffer's first `sizeof` bytes |
| `AodvInput.Check` | os/net/routing/aodv/aodv-routing.c:220-246 | the handler checks in the source's order: no data is `NoData`; else fewer than `sizeof` bytes is `TooShort`; else a type byte other than the expected one is `WrongType`; the datagram passes exactly when data is present, long enough and of the expected type (the same checks at lines 254-269 and 277-292) |
| `AodvInput.HandleIncomingRreq` | os/net/routing/aodv/aodv-routing.c:211-249 | accepts exactly the datagrams of at least RREQ size with the RREQ type byte, and reads them as the RREQ they begin with; shorter ones are dropped as too short |
| `AodvInput.HandleIncomingRrep` | os/net/routing/aodv/aodv-routing.c:251-272 | accepts exactly the datagrams of at least RREP size with the RREP type byte, and reads them as the RREP they begin with |
| `AodvInput.HandleIncomingRerr` | os/net/routing/aodv/aodv-routing.c:274-295 | as written, accepts exactly the datagrams of at least RERR size with the RREP type byte; a datagram with the RERR type byte is always dropped |
| `AodvInput.HandleIncomingRerrCorrected` | os/net/routing/aodv/aodv-routing.c:289 | with the check against the RERR type, it accepts exactly the long-enough RERRs and reads them as the RERR they begin with |
| `AodvInput.HandleIncomingPacket` | os/net/routing/aodv/aodv-routing.c:297-323 | missing data and datagrams shorter than the header are dropped; unknown types are ignored; only whole RREQs and RREPs are accepted, never a RERR |
| `AodvInput.HandleIncomingPacketCorrected` | os/net/routing/aodv/aodv-routing.c:297-323 | with the corrected RERR handler, it accepts exactly the datagrams that hold a whole message of a known type |
| `AodvInput.TruncatedIsDropped` | os/net/routing/aodv/aodv-routing.c:230-235 | a datagram shorter than the message its type byte announces is dropped as too short |
| `AodvRouting.LastKnownSeqno` | os/net/routing/aodv/aodv-routing.c:82-96 | 0 with no entry, else the entry's sequence number in network order; so 0 exactly when there is no entry or its sequence number is 0 |
| `AodvRouting.BuildRreq` | os/net/routing/aodv/aodv-routing.c:143-173 | RREQ with reserved and hop count 0 for the given destination; it carries the old request id and own sequence number, and the last known destination sequence number; the unknown flag is set exactly when that number is 0, else the flags are 0; both counters end advanced by one modulo 2^32, exactly one step fresher; nothing else changes |
| `AodvRouting.SendRreq` | os/net/routing/aodv/aodv-routing.c:143-173 | every field and counter step of `BuildRreq`, with the originator address the multicast connection's remote address, the all-nodes group ff02::1 (lines 398-401) |
| `AodvRouting.SendRreqFrom` | os/net/routing/aodv/aodv-routing.c:166 | corrected builder: the originator is the node's own address; state and every other field are as `SendRreq` produces them |
| `AodvRouting.SendRrep` | os/net/routing/aodv/aodv-routing.c:175-194 | unicast RREP to the next hop; flags and prefix size 0; the given addresses and sequence number; hop count truncated to 8 bits; lifetime big-endian route timeout |
| `AodvRouting.SendRerr` | os/net/routing/aodv/aodv-routing.c:196-209 | multicast RERR with flags and reserved 0, one destination, naming the given address and sequence number |
| `AodvRouting.BadDest` | os/net/routing/aodv/aodv-routing.c:334-349 | ends with `SEND_RERR` pending for `dest`, overwriting any pending command; `bad_seqno` is the last known sequence number (0 with no entry); an existing entry is marked bad and so becomes unusable; other entries, counters, timer and `rreq_addr` are unchanged |
| `AodvRouting.RequestRouteTo` | os/net/routing/aodv/aodv-routing.c:354-389 | returns exactly the usable route; a found route only records the touch; with the timer running or a command pending nothing changes; otherwise `SEND_RREQ` for the host is staged and the timer blocks further requests for `CLOCK_SECOND/8` ticks; a command is staged only when no route is returned |
| `AodvRouting.Poll` | os/net/routing/aodv/aodv-routing.c:438-455 | always ends with no command pending; a staged RREQ is sent, bumping the counters, exactly when no usable route to `rreq_addr` exists then; a staged RERR is sent from `bad_dest` and `bad_seqno`; no command, no send |
| `AodvRouting.Exit` | os/net/routing/aodv/aodv-routing.c:464-466 | no command pending and no entry left in the table; nothing else changes |
| `AodvProcess.Handle` | os/net/routing/aodv/aodv-routing.c:424-462 | an inbound datagram changes no state and sends nothing; only a poll turn or a direct call of an exported builder sends, at most one datagram; a poll turn sends a RREQ only when one was pending; a direct call sends exactly one datagram and changes nothing but the counters |
| `AodvProcess.HandleCounters` | os/net/routing/aodv/aodv-routing.c:160-169 | one event sends at most one RREQ; it carries the current request id, and both counters advance by the number sent |
| `AodvProcess.RunRreqIdsConsecutive` | os/net/routing/aodv/aodv-routing.c:160-169 | over any run, the RREQs sent carry consecutive request ids from the current one; both counters end advanced by the number sent, modulo 2^32 |
| `AodvProcess.CountersInLockstep` | os/net/routing/aodv/aodv-routing.c:98-99 | from process start, the request id and the own sequence number are always equal |
| `AodvProcess.HandleTimer` | os/net/routing/aodv/aodv-routing.c:371-387 | the timer changes only when a request is staged, which happens only once it has expired, and then it is set a full interval ahead |
| `AodvProcess.StagingsAreSpaced` | os/net/routing/aodv/aodv-routing.c:370-387 | over any run, route requests are staged no earlier than the timer's deadline and at least `CLOCK_SECOND/8` ticks apart |
| `AodvProcess.HandleRreqBudget` | os/net/routing/aodv/aodv-routing.c:439-454 | after one event, the RREQs sent plus a still-pending `SEND_RREQ` never exceed a request staged by that event, plus a direct `aodv_send_rreq` call, plus a `SEND_RREQ` pending before it |
| `AodvProcess.RreqsAreStaged` | os/net/routing/aodv/aodv-routing.c:384-386 | over any run, including direct calls of the exported builders, the RREQs sent (plus one still pending) never outnumber the requests staged here plus the direct calls of `aodv_send_rreq` (lines 142-173), plus one pending at the start |
| `AodvProcess.DirectRreqBypassesGate` | os/net/routing/aodv/aodv-routing.c:142-173 | a direct call of the exported `aodv_send_rreq` sends a RREQ carrying the current request id, whatever the rate-limit timer and command slot hold, and leaves both unchanged |
| `AodvProcess.ColdStartDiscovery` | os/net/routing/aodv/aodv-routing.c:143-173 | from process start, a route request is staged; the next poll sends a RREQ flagged unknown, with request id 0 and own sequence number 0, and leaves both counters at 1 |
| `AodvProcess.SecondRequestRateLimited` | os/net/routing/aodv/aodv-routing.c:370-374 | a second request for an unknown destination within the interval is refused and changes nothing, even after the first RREQ has gone out |
| `AodvProcess.BadDestCancelsPendingRreq` | os/net/routing/aodv/aodv-routing.c:347 | a route error staged over a pending RREQ replaces it; the next poll sends only the RERR, the counters stay put, and the timer armed for the lost RREQ keeps running |
| `AodvProcess.PollIsIdempotent` | os/net/routing/aodv/aodv-routing.c:454 | a second poll turn finds nothing to do |
| `AodvTransit.RreqTransit` | os/net/routing/aodv/aodv-routing.c:172 | a peer's dispatcher accepts a sent RREQ and reads back exactly the message sent |
| `AodvTransit.RreqWireOrder` | os/net/routing/aodv/aodv-routing.c:150-163 | on the wire, the request id, originator sequence number and last known destination sequence number are big-endian (zero bytes when unknown) |
| `AodvTransit.RrepTransit` | os/net/routing/aodv/aodv-routing.c:191-193 | a peer's dispatcher accepts a sent RREP and reads it back; the lifetime is big-endian and the hop count is truncated to 8 bits |
| `AodvTransit.RerrDroppedAsWritten` | os/net/routing/aodv/aodv-routing.c:289 | every RERR this engine sends is dropped by a peer running the same code, as having the wrong type |
| `AodvTransit.RerrTransitCorrected` | os/net/routing/aodv/aodv-routing.c:201-208 | with the corrected check, a peer accepts the RERR and reads back the destination and its sequence number |
| `AodvTransit.ReportedRerrOnWire` | os/net/routing/aodv/aodv-routing.c:334-349 | after `aodv_bad_dest` and a poll, the RERR on the wire names the destination with its last known sequence number big-endian, or zero bytes |
| `AodvTransit.RreqOriginatorIsGroup` | os/net/routing/aodv/aodv-routing.c:166 | the RREQ's originator is never the sender's own unicast address; the corrected builder puts that address there |

## Left out

- `aodv-driver.c` and `aodv.c`: routing-driver shims that return fixed answers, with no engine logic.
- `aodv_routing_init` (aodv-routing.c:66-69) only starts the process; the driver's `init` calls it after `aodv_rt_init` (aodv-driver.c:34-36). The process's starting state is `AodvRouting.INIT`.
- UDP connection setup and teardown (lines 395-422 and 468-476), and the `sendto` connection-patching hack (lines 127-140). A send is modelled as a `Datagram` value.
- The TTL of multicast sends (`AODV_NET_DIAMETER`, line 171). A RERR goes out with whatever TTL the connection last held, which depends on transport state this model does not keep.
- The `fwcache` duplicate-suppression table (lines 101-123): it is compiled out with `#if 0`.
- Routing-table internals (insertion, expiry, LRU eviction): they live in `aodv-rt.c`, which is not part of this model.
- `AodvRt.Lru`: states only that the touch is recorded and no entry changes, because the LRU order is kept in `aodv-rt.c`.
- `AodvRt.Lookup`: usability is modelled as "not marked bad" only. Expiry inside `aodv-rt.c` is not modelled.
- Contiki process and event plumbing (`process_post`, `tcpip_poll_udp`, the `PROCESS_EVENT_MSG` branch) and logging. The poll turn is an explicit event.
- Wrap-around of Contiki's `clock_time_t`: the clock is an unbounded natural number.
- Big-endian hosts, where `uip_htonl` is the identity. The host is taken to be little-endian.
- Calls into the engine after the process has exited.
- Relay and route-update logic for inbound RREQ, RREP and RERR: the handlers end in TODO comments (lines 248, 271, 294).

## Findings

| source | as written | input that shows it | evidently intended | confidence | as-written member | corrected member |
|---|---|---|---|---|---|---|
| os/net/routing/aodv/aodv-routing.c:289 | the RERR handler compares the type byte with `AODV_TYPE_RREP` | any RERR, e.g. the 24 bytes `aodv_send_rerr` emits; the dispatcher only reaches this handler with type RERR, so it drops every RERR | compare with `AODV_TYPE_RERR` | high; not executed | `AodvTransit.RerrDroppedAsWritten` | `AodvTransit.RerrTransitCorrected` |
| os/net/routing/aodv/aodv-routing.c:73 | `SCMP32` subtracts two `int32_t` values, which is undefined on overflow | `SCMP32(0x80000000, 1)`: `INT32_MIN - 1` | subtract as `uint32_t` and cast the difference to `int32_t` | medium; not executed | `SeqNo.Scmp32AsWrittenOverflows` | `SeqNo.Scmp32` |
| os/net/routing/aodv/aodv-routing.c:166 | the RREQ's originator address is copied from the multicast connection's remote address, the all-nodes group ff02::1 (lines 398-401) | any RREQ: its originator is ff02::1, so no reply can be routed back to the requester | the sending node's own address (section 5.1 of RFC 3561) | medium; not executed | `AodvTransit.RreqOriginatorIsGroup` | `AodvRouting.SendRreqFrom` |

=== FILE: aodv_input.dfy ===
/** Validation of inbound AODV datagrams: the dispatcher
    `handle_incoming_packet` and the three per-message handlers. Each handler
    checks that data is present, that the datagram is at least as long as its
    struct and that the type byte is the one it expects; what a handler would
    then do with an accepted message is left as a TODO in aodv-routing.c, so the
    handlers only decide. None of them touches the engine's state.

    The datagram is `None` when `uip_appdata` is NULL. */
module AodvInput {
  import opened Optional
  import opened Uip
  import opened AodvMsg

  datatype Reason = NoData | TooShort | WrongType

  datatype Verdict =
    | Dropped(reason: Reason)
      /** The dispatcher saw a type byte it has no handler for. */
    | Ignored
      /** A handler passed its checks and reads the datagram as `msg`. */
    | Accepted(msg: Msg)

  /** The checks every handler makes, in the order aodv-routing.c makes them:
      data present, at least `size` bytes, type byte equal to `expected`. */
  function Check(data: Option<seq<byte>>, size: nat, expected: byte): (r: Option<Reason>)
    ensures r.None? <==> data.Some? && |data.value| >= size && |data.value| >= 1 && data.value[0] == expected
    ensures data.None? ==> r == Some(NoData)
    ensures data.Some? && |data.value| < size ==> r == Some(TooShort)
    ensures data.Some? && |data.value| >= size && (|data.value| < 1 || data.value[0] != expected)
            ==> r == Some(WrongType)
  {
    match data
    case None => Some(NoData)
    case Some(d) =>
      if |d| < size then Some(TooShort)
      else if |d| < 1 || d[0] != expected then Some(WrongType)
      else None
  }

  function HandleIncomingRreq(data: Option<seq<byte>>): (v: Verdict)
    ensures v.Accepted? <==> data.Some? && |data.value| >= RREQ_SIZE && data.value[0] == RREQ_TYPE
    ensures v.Accepted? ==> v.msg.Rreq? && Encode(v.msg) == data.value[..RREQ_SIZE]
    ensures data.Some? && |data.value| < RREQ_SIZE ==> v == Dropped(TooShort)
  {
    match Check(data, RREQ_SIZE, RREQ_TYPE)
    case Some(why) => Dropped(why)
    case None =>
      EncodeView(data.value);
      Accepted(ViewRreq(data.value))
  }

  function HandleIncomingRrep(data: Option<seq<byte>>): (v: Verdict)
    ensures v.Accepted? <==> data.Some? && |data.value| >= RREP_SIZE && data.value[0] == RREP_TYPE
    ensures v.Accepted? ==> v.msg.Rrep? && Encode(v.msg) == data.value[..RREP_SIZE]
    ensures data.Some? && |data.value| < RREP_SIZE ==> v == Dropped(TooShort)
  {
    match Check(data, RREP_SIZE, RREP_TYPE)
    case Some(why) => Dropped(why)
    case None =>
      EncodeView(data.value);
      Accepted(ViewRrep(data.value))
  }

  /** The RERR handler as written: it compares the type byte against the
      RREP type, so it accepts only datagrams that are not route errors. */
  function HandleIncomingRerr(data: Option<seq<byte>>): (v: Verdict)
    ensures v.Accepted? <==> data.Some? && |data.value| >= RERR_SIZE && data.value[0] == RREP_TYPE
    ensures data.Some? && |data.value| >= 1 && data.value[0] == RERR_TYPE ==> v.Dropped?
    ensures v.Accepted? ==> v.msg.Rerr? && Encode(v.msg) != data.value[..RERR_SIZE]
  {
    match Check(data, RERR_SIZE, RREP_TYPE)
    case Some(why) => Dropped(why)
    case None =>
      var m := ViewRerr(data.value);
      assert Encode(m)[0] == RERR_TYPE != data.value[..RERR_SIZE][0];
      Accepted(m)
  }

  /** The RERR handler with the type check it evidently intends. */
  function HandleIncomingRerrCorrected(data: Option<seq<byte>>): (v: Verdict)
    ensures v.Accepted? <==> data.Some? && |data.value| >= RERR_SIZE && data.value[0] == RERR_TYPE
    ensures v.Accepted? ==> v.msg.Rerr? && Encode(v.msg) == data.value[..RERR_SIZE]
    ensures data.Some? && |data.value| < RERR_SIZE ==> v == Dropped(TooShort)
  {
    match Check(data, RERR_SIZE, RERR_TYPE)
    case Some(why) => Dropped(why)
    case None =>
      EncodeView(data.value);
      Accepted(ViewRerr(data.value))
  }

  /** `handle_incoming_packet` as written: drops a datagram without data or
      shorter than the common header, dispatches the three known types and
      ignores every other type. Since the RERR handler is reached only with
      a RERR type byte, no route error is ever accepted. */
  function HandleIncomingPacket(data: Option<seq<byte>>): (v: Verdict)
    ensures data.None? ==> v == Dropped(NoData)
    ensures data.Some? && |data.value| < HEADER_SIZE ==> v == Dropped(TooShort)
    ensures v == Ignored <==> data.Some? && |data.value| >= HEADER_SIZE
                              && data.value[0] !in {RREQ_TYPE, RREP_TYPE, RERR_TYPE}
    ensures v.Accepted? <==> data.Some? && |data.value| >= HEADER_SIZE
                             && ((data.value[0] == RREQ_TYPE && |data.value| >= RREQ_SIZE)
                                 || (data.value[0] == RREP_TYPE && |data.value| >= RREP_SIZE))
    ensures v.Accepted? ==> !v.msg.Rerr? && |data.value| >= SizeOf(v.msg)
                            && Encode(v.msg) == data.value[..SizeOf(v.msg)]
  {
    match data
    case None => Dropped(NoData)
    case Some(d) =>
      if |d| < HEADER_SIZE then Dropped(TooShort)
      else if d[0] == RREQ_TYPE then HandleIncomingRreq(data)
      else if d[0] == RREP_TYPE then HandleIncomingRrep(data)
      else if d[0] == RERR_TYPE then HandleIncomingRerr(data)
      else Ignored
  }

  /** The dispatcher over the corrected RERR handler: it accepts exactly the
      datagrams that hold a whole message of a known type, and reads each as
      the message whose image they begin with. */
  function HandleIncomingPacketCorrected(data: Option<seq<byte>>): (v: Verdict)
    ensures data.None? ==> v == Dropped(NoData)
    ensures v == Ignored <==> data.Some? && |data.value| >= HEADER_SIZE
                              && data.value[0] !in {RREQ_TYPE, RREP_TYPE, RERR_TYPE}
    ensures v.Accepted? <==> data.Some? && |data.value| >= HEADER_SIZE
                             && ((data.value[0] == RREQ_TYPE && |data.value| >= RREQ_SIZE)
                                 || (data.value[0] == RREP_TYPE && |data.value| >= RREP_SIZE)
                                 || (data.value[0] == RERR_TYPE && |data.value| >= RERR_SIZE))
    ensures v.Accepted? ==> |data.value| >= SizeOf(v.msg)
                            && Encode(v.msg) == data.value[..SizeOf(v.msg)]
  {
    match data
    case None => Dropped(NoData)
    case Some(d) =>
      if |d| < HEADER_SIZE then Dropped(TooShort)
      else if d[0] == RREQ_TYPE then HandleIncomingRreq(data)
      else if d[0] == RREP_TYPE then HandleIncomingRrep(data)
      else if d[0] == RERR_TYPE then HandleIncomingRerrCorrected(data)
      else Ignored
  }

  /** Every datagram shorter than the message its type byte announces is
      dropped as too short, by the handler that type reaches. */
  lemma TruncatedIsDropped(d: seq<byte>)
    requires |d| >= HEADER_SIZE && d[0] in {RREQ_TYPE, RREP_TYPE, RERR_TYPE}
    requires d[0] == RREQ_TYPE ==> |d| < RREQ_SIZE
    requires d[0] == RREP_TYPE ==> |d| < RREP_SIZE
    requires d[0] == RERR_TYPE ==> |d| < RERR_SIZE
    ensures HandleIncomingPacket(Some(d)) == Dropped(TooShort)
    ensures HandleIncomingPacketCorrected(Some(d)) == Dropped(TooShort)
  {
  }
}

=== FILE: aodv_msg.dfy ===
/** The AODV control messages of sections 5.1 to 5.3 of RFC 3561 as the
    engine lays them out in memory, and the byte images the engine sends and
    receives. A 32-bit field holds the word exactly as it sits in the struct:
    the engine stores sequence numbers, request ids and lifetimes already
    converted to network order, so on the wire they read big-endian. */
module AodvMsg {
  import opened Uip

  const RREQ_TYPE: byte := 1
  const RREP_TYPE: byte := 2
  const RERR_TYPE: byte := 3

  /** The "unknown destination sequence number" flag of a RREQ (the U bit of
      section 5.1 of RFC 3561). */
  const RREQ_FLAG_UNKSEQNO: byte := 0x08

  /** `sizeof` of the common header (the type byte) and of each message. */
  const HEADER_SIZE: nat := 1
  const RREQ_SIZE: nat := 48
  const RREP_SIZE: nat := 44
  const RERR_SIZE: nat := 24

  datatype Msg =
    | Rreq(flags: byte, reserved: byte, hopCount: byte, rreqId: u32,
           destAddr: Addr, destSeqno: u32, origAddr: Addr, origSeqno: u32)
    | Rrep(flags: byte, prefixSz: byte, hopCount: byte,
           destAddr: Addr, destSeqno: u32, origAddr: Addr, lifetime: u32)
      /** A route error with room for one unreachable destination, the
          `unreach[0]` slot of the struct. */
    | Rerr(flags: byte, reserved: byte, destCount: byte,
           unreachAddr: Addr, unreachSeqno: u32)

  function TypeOf(m: Msg): byte {
    match m
    case Rreq(_, _, _, _, _, _, _, _) => RREQ_TYPE
    case Rrep(_, _, _, _, _, _, _) => RREP_TYPE
    case Rerr(_, _, _, _, _) => RERR_TYPE
  }

  function SizeOf(m: Msg): nat {
    match m
    case Rreq(_, _, _, _, _, _, _, _) => RREQ_SIZE
    case Rrep(_, _, _, _, _, _, _) => RREP_SIZE
    case Rerr(_, _, _, _, _) => RERR_SIZE
  }

  /** The bytes of the struct as a little-endian host holds them, which are
      the bytes handed to the transport. */
  function Encode(m: Msg): (b: seq<byte>)
    ensures |b| == SizeOf(m)
    ensures b[0] == TypeOf(m)
  {
    match m
    case Rreq(flags, reserved, hopCount, rreqId, destAddr, destSeqno, origAddr, origSeqno) =>
      [RREQ_TYPE, flags, reserved, hopCount] + LeBytes(rreqId) + destAddr
      + LeBytes(destSeqno) + origAddr + LeBytes(origSeqno)
    case Rrep(flags, prefixSz, hopCount, destAddr, destSeqno, origAddr, lifetime) =>
      [RREP_TYPE, flags, prefixSz, hopCount] + destAddr + LeBytes(destSeqno)
      + origAddr + LeBytes(lifetime)
    case Rerr(flags, reserved, destCount, unreachAddr, unreachSeqno) =>
      [RERR_TYPE, flags, reserved, destCount] + unreachAddr + LeBytes(unreachSeqno)
  }

  /** Reading a buffer through an `aodv_msg_rreq_t` pointer: every byte of
      the struct after the type byte is the buffer's byte at that offset. */
  function ViewRreq(d: seq<byte>): (m: Msg)
    requires |d| >= RREQ_SIZE
    ensures m.Rreq?
    ensures Encode(m)[1..] == d[1..RREQ_SIZE]
  {
    LeBytesFromLe(d[4..8]);
    LeBytesFromLe(d[24..28]);
    LeBytesFromLe(d[44..48]);
    assert d[1..48] == [d[1], d[2], d[3]] + d[4..8] + d[8..24] + d[24..28] + d[28..44] + d[44..48];
    Rreq(d[1], d[2], d[3], FromLe(d[4..8]), d[8..24], FromLe(d[24..28]),
         d[28..44], FromLe(d[44..48]))
  }

  /** Reading a buffer through an `aodv_msg_rrep_t` pointer, byte for byte. */
  function ViewRrep(d: seq<byte>): (m: Msg)
    requires |d| >= RREP_SIZE
    ensures m.Rrep?
    ensures Encode(m)[1..] == d[1..RREP_SIZE]
  {
    LeBytesFromLe(d[20..24]);
    LeBytesFromLe(d[40..44]);
    assert d[1..44] == [d[1], d[2], d[3]] + d[4..20] + d[20..24] + d[24..40] + d[40..44];
    Rrep(d[1], d[2], d[3], d[4..20], FromLe(d[20..24]), d[24..40], FromLe(d[40..44]))
  }

  /** Reading a buffer through an `aodv_msg_rerr_t` pointer, byte for byte. */
  function ViewRerr(d: seq<byte>): (m: Msg)
    requires |d| >= RERR_SIZE
    ensures m.Rerr?
    ensures Encode(m)[1..] == d[1..RERR_SIZE]
  {
    LeBytesFromLe(d[20..24]);
    assert d[1..24] == [d[1], d[2], d[3]] + d[4..20] + d[20..24];
    Rerr(d[1], d[2], d[3], d[4..20], FromLe(d[20..24]))
  }

  /** Reading a buffer through the pointer type of the message it holds. */
  function View(d: seq<byte>, t: byte): (m: Msg)
    requires t == RREQ_TYPE ==> |d| >= RREQ_SIZE
    requires t == RREP_TYPE ==> |d| >= RREP_SIZE
    requires t != RREQ_TYPE && t != RREP_TYPE ==> |d| >= RERR_SIZE
  {
    if t == RREQ_TYPE then ViewRreq(d) else if t == RREP_TYPE then ViewRrep(d) else ViewRerr(d)
  }

  /** Where the fields of a RREQ sit in its image. */
  lemma RreqFields(m: Msg)
    requires m.Rreq?
    ensures var w := Encode(m);
            && w[1] == m.flags && w[2] == m.reserved && w[3] == m.hopCount
            && w[4..8] == LeBytes(m.rreqId) && w[8..24] == m.destAddr
            && w[24..28] == LeBytes(m.destSeqno) && w[28..44] == m.origAddr
            && w[44..48] == LeBytes(m.origSeqno)
  {
  }

  lemma {:induction false} ViewEncodeRreq(m: Msg, extra: seq<byte>)
    requires m.Rreq?
    ensures ViewRreq(Encode(m) + extra) == m
  {
    var w := Encode(m);
    var d := w + extra;
    RreqFields(m);
    assert d[..RREQ_SIZE] == w;
    assert d[1] == w[1] && d[2] == w[2] && d[3] == w[3];
    assert d[4..8] == w[4..8] && d[8..24] == w[8..24] && d[24..28] == w[24..28];
    assert d[28..44] == w[28..44] && d[44..48] == w[44..48];
    FromLeLeBytes(m.rreqId);
    FromLeLeBytes(m.destSeqno);
    FromLeLeBytes(m.origSeqno);
  }

  /** Where the fields of a RREP sit in its image. */
  lemma RrepFields(m: Msg)
    requires m.Rrep?
    ensures var w := Encode(m);
            && w[1] == m.flags && w[2] == m.prefixSz && w[3] == m.hopCount
            && w[4..20] == m.destAddr && w[20..24] == LeBytes(m.destSeqno)
            && w[24..40] == m.origAddr && w[40..44] == LeBytes(m.lifetime)
  {
  }

  lemma {:induction false} ViewEncodeRrep(m: Msg, extra: seq<byte>)
    requires m.Rrep?
    ensures ViewRrep(Encode(m) + extra) == m
  {
    var w := Encode(m);
    var d := w + extra;
    RrepFields(m);
    assert d[..RREP_SIZE] == w;
    assert d[1] == w[1] && d[2] == w[2] && d[3] == w[3];
    assert d[4..20] == w[4..20] && d[20..24] == w[20..24];
    assert d[24..40] == w[24..40] && d[40..44] == w[40..44];
    FromLeLeBytes(m.destSeqno);
    FromLeLeBytes(m.lifetime);
  }

  /** Where the fields of a RERR sit in its image. */
  lemma RerrFields(m: Msg)
    requires m.Rerr?
    ensures var w := Encode(m);
            && w[1] == m.flags && w[2] == m.reserved && w[3] == m.destCount
            && w[4..20] == m.unreachAddr && w[20..24] == LeBytes(m.unreachSeqno)
  {
  }

  lemma {:induction false} ViewEncodeRerr(m: Msg, extra: seq<byte>)
    requires m.Rerr?
    ensures ViewRerr(Encode(m) + extra) == m
  {
    var w := Encode(m);
    var d := w + extra;
    RerrFields(m);
    assert d[..RERR_SIZE] == w;
    assert d[1] == w[1] && d[2] == w[2] && d[3] == w[3];
    assert d[4..20] == w[4..20] && d[20..24] == w[20..24];
    FromLeLeBytes(m.unreachSeqno);
  }

  /** A receiver reading the bytes of `m`, followed by any trailing bytes,
      through the pointer type of `m` gets `m` back. */
  lemma {:induction false} ViewEncode(m: Msg, extra: seq<byte>)
    ensures View(Encode(m) + extra, TypeOf(m)) == m
  {
    match m
    case Rreq(_, _, _, _, _, _, _, _) => ViewEncodeRreq(m, extra);
    case Rrep(_, _, _, _, _, _, _) => ViewEncodeRrep(m, extra);
    case Rerr(_, _, _, _, _) => ViewEncodeRerr(m, extra);
  }

  lemma {:induction false} EncodeViewRreq(d: seq<byte>)
    requires |d| >= RREQ_SIZE && d[0] == RREQ_TYPE
    ensures Encode(ViewRreq(d)) == d[..RREQ_SIZE]
  {
    var w := Encode(ViewRreq(d));
    assert w == [w[0]] + w[1..] && d[..RREQ_SIZE] == [d[0]] + d[1..RREQ_SIZE];
  }

  lemma {:induction false} EncodeViewRrep(d: seq<byte>)
    requires |d| >= RREP_SIZE && d[0] == RREP_TYPE
    ensures Encode(ViewRrep(d)) == d[..RREP_SIZE]
  {
    var w := Encode(ViewRrep(d));
    assert w == [w[0]] + w[1..] && d[..RREP_SIZE] == [d[0]] + d[1..RREP_SIZE];
  }

  lemma {:induction false} EncodeViewRerr(d: seq<byte>)
    requires |d| >= RERR_SIZE && d[0] == RERR_TYPE
    ensures Encode(ViewRerr(d)) == d[..RERR_SIZE]
  {
    var w := Encode(ViewRerr(d));
    assert w == [w[0]] + w[1..] && d[..RERR_SIZE] == [d[0]] + d[1..RERR_SIZE];
  }

  /** Conversely, the struct read from a buffer whose type byte matches
      re-encodes to the buffer's first `SizeOf` bytes. */
  lemma {:induction false} EncodeView(d: seq<byte>)
    requires |d| >= 1
    requires d[0] == RREQ_TYPE || d[0] == RREP_TYPE || d[0] == RERR_TYPE
    requires d[0] == RREQ_TYPE ==> |d| >= RREQ_SIZE
    requires d[0] == RREP_TYPE ==> |d| >= RREP_SIZE
    requires d[0] == RERR_TYPE ==> |d| >= RERR_SIZE
    ensures Encode(View(d, d[0])) == d[..SizeOf(View(d, d[0]))]
  {
    if d[0] == RREQ_TYPE {
      EncodeViewRreq(d);
    } else if d[0] == RREP_TYPE {
      EncodeViewRrep(d);
    } else {
      EncodeViewRerr(d);
    }
  }
}

=== FILE: aodv_process.dfy ===
/** The AODV process as an event loop over the engine. Each event is handled
    to completion before the next, which is how the single cooperative
    process and the functions other processes call into it interleave: an
    inbound datagram, a poll turn of the UDP connection, a caller's
    `aodv_request_route_to` or `aodv_bad_dest`, or a caller's direct use of
    one of the exported builders `aodv_send_rreq`, `aodv_send_rrep` and
    `aodv_send_rerr`. A run is a
    sequence of such events, each with the clock reading at which it
    happens; the lemmas here are about whole runs. */
module AodvProcess {
  import opened Optional
  import opened Uip
  import opened SeqNo
  import opened AodvRt
  import opened AodvMsg
  import opened AodvRouting

  datatype Event =
    | Received(data: Option<seq<byte>>)
    | Polled
    | RouteRequested(host: Addr)
    | DestUnreachable(dest: Addr)
    | RreqSendCalled(addr: Addr)
    | RrepSendCalled(dest: Addr, nextHop: Addr, orig: Addr, seqno: u32, hopCount: nat)
    | RerrSendCalled(unreach: Addr, seqno: u32)

  /** A direct call of one of the exported message builders. */
  predicate DirectSend(ev: Event) {
    ev.RreqSendCalled? || ev.RrepSendCalled? || ev.RerrSendCalled?
  }

  datatype Timed = Timed(ev: Event, now: nat)

  /** The host-order request ids of the RREQs among `out`, in order. */
  function RreqIds(out: seq<Datagram>): seq<u32>
  {
    if out == [] then []
    else (if out[0].msg.Rreq? then [Htonl(out[0].msg.rreqId)] else []) + RreqIds(out[1..])
  }

  lemma {:induction false} RreqIdsAppend(a: seq<Datagram>, b: seq<Datagram>)
    ensures RreqIds(a + b) == RreqIds(a) + RreqIds(b)
    decreases |a|
  {
    if a == [] {
      assert a + b == b;
    } else {
      var head := if a[0].msg.Rreq? then [Htonl(a[0].msg.rreqId)] else [];
      assert (a + b)[0] == a[0] && (a + b)[1..] == a[1..] + b;
      assert RreqIds(a + b) == head + RreqIds(a[1..] + b);
      assert RreqIds(a) == head + RreqIds(a[1..]);
      RreqIdsAppend(a[1..], b);
    }
  }

  lemma RreqIdsShort(out: seq<Datagram>)
    requires |out| <= 1
    ensures out == [] ==> RreqIds(out) == []
    ensures |out| == 1 ==> RreqIds(out) == (if out[0].msg.Rreq? then [Htonl(out[0].msg.rreqId)] else [])
  {
    if |out| == 1 {
      assert out[1..] == [];
    }
  }

  /** One event handled to completion. An inbound datagram is only validated
      (`AodvInput.HandleIncomingPacket`), and no verdict touches the engine's
      state, so it changes nothing here. Only a poll turn or a direct call of
      a builder sends; a poll turn sends a RREQ only for a RREQ that was
      pending, and a direct call leaves the command slot and the timer alone. */
  function Handle(s: State, ev: Event, now: nat): (r: Turn)
    ensures ev.Received? ==> r.state == s && r.out == []
    ensures ev.Polled? ==> r.state.command == CommandNone
    ensures |r.out| <= 1
    ensures r.out != [] ==> (ev.Polled? && s.command != CommandNone) || DirectSend(ev)
    ensures RreqIds(r.out) != [] ==> (ev.Polled? && s.command == CommandSendRreq) || ev.RreqSendCalled?
    ensures DirectSend(ev) ==> |r.out| == 1
                               && r.state == s.(rreqId := r.state.rreqId, myHseqno := r.state.myHseqno)
  {
    match ev
    case Received(_) =>
      Turn(s, [])
    case Polled =>
      var p := Poll(s);
      RreqIdsShort(p.out);
      p
    case RouteRequested(host) =>
      Turn(RequestRouteTo(s, host, now).state, [])
    case DestUnreachable(dest) =>
      Turn(BadDest(s, dest), [])
    case RreqSendCalled(addr) =>
      var e := SendRreq(s, addr);
      RreqIdsShort([e.sent]);
      Turn(e.state, [e.sent])
    case RrepSendCalled(dest, nextHop, orig, seqno, hopCount) =>
      RreqIdsShort([SendRrep(dest, nextHop, orig, seqno, hopCount)]);
      Turn(s, [SendRrep(dest, nextHop, orig, seqno, hopCount)])
    case RerrSendCalled(unreach, seqno) =>
      RreqIdsShort([SendRerr(unreach, seqno)]);
      Turn(s, [SendRerr(unreach, seqno)])
  }

  /** The events of `evs` handled in order, with everything sent. */
  function Run(s: State, evs: seq<Timed>): Turn
    decreases |evs|
  {
    if evs == [] then Turn(s, [])
    else
      var first := Handle(s, evs[0].ev, evs[0].now);
      var rest := Run(first.state, evs[1..]);
      Turn(rest.state, first.out + rest.out)
  }

  /** Whether handling `e` in state `s` stages a route request. */
  predicate Stages(s: State, e: Timed) {
    e.ev.RouteRequested? && s.command == CommandNone
    && Handle(s, e.ev, e.now).state.command == CommandSendRreq
  }

  /** The clock readings at which a run stages route requests. */
  function StageTimes(s: State, evs: seq<Timed>): seq<nat>
    decreases |evs|
  {
    if evs == [] then []
    else
      (if Stages(s, evs[0]) then [evs[0].now] else [])
      + StageTimes(Handle(s, evs[0].ev, evs[0].now).state, evs[1..])
  }

  /** One event's effect on the counters: at most one RREQ, carrying the
      current request id, and both counters advance by the number sent. */
  lemma HandleCounters(s: State, ev: Event, now: nat)
    ensures var r := Handle(s, ev, now);
            var ids := RreqIds(r.out);
            && |ids| <= 1
            && (|ids| == 1 ==> ids[0] == s.rreqId)
            && r.state.rreqId == Add32(s.rreqId, |ids|)
            && r.state.myHseqno == Add32(s.myHseqno, |ids|)
  {
    var r := Handle(s, ev, now);
    var ids := RreqIds(r.out);
    if ev.Polled? && s.command == CommandSendRreq && Lookup(s.table, s.rreqAddr).None? {
      var e := SendRreq(s, s.rreqAddr);
      assert r.out == [e.sent];
      assert ids == [Htonl(e.sent.msg.rreqId)];
    } else if ev.RreqSendCalled? {
      var e := SendRreq(s, ev.addr);
      assert r.out == [e.sent];
      assert ids == [Htonl(e.sent.msg.rreqId)];
    } else if ev.Polled? && s.command == CommandSendRerr {
      assert ids == [];
    }
  }

  lemma Add32Add32(x: u32, j: nat, k: nat)
    ensures Add32(Add32(x, j), k) == Add32(x, j + k)
  {
  }

  /** `ids` counts up from `start`, wrapping modulo 2^32. */
  predicate CountsUpFrom(ids: seq<u32>, start: u32) {
    forall i :: 0 <= i < |ids| ==> ids[i] == Add32(start, i)
  }

  lemma CountsUpAppend(a: seq<u32>, b: seq<u32>, start: u32)
    requires CountsUpFrom(a, start) && CountsUpFrom(b, Add32(start, |a|))
    ensures CountsUpFrom(a + b, start)
  {
    forall i | |a| <= i < |a| + |b|
      ensures (a + b)[i] == Add32(start, i)
    {
      Add32Add32(start, |a|, i - |a|);
    }
  }

  /** Over any run, the RREQs sent carry consecutive request ids starting
      from the current one, and each counter ends advanced by the number of
      RREQs sent, modulo 2^32. */
  lemma {:induction false} RunRreqIdsConsecutive(s: State, evs: seq<Timed>)
    ensures CountsUpFrom(RreqIds(Run(s, evs).out), s.rreqId)
    ensures Run(s, evs).state.rreqId == Add32(s.rreqId, |RreqIds(Run(s, evs).out)|)
    ensures Run(s, evs).state.myHseqno == Add32(s.myHseqno, |RreqIds(Run(s, evs).out)|)
    decreases |evs|
  {
    if evs != [] {
      var first := Handle(s, evs[0].ev, evs[0].now);
      var rest := Run(first.state, evs[1..]);
      assert Run(s, evs) == Turn(rest.state, first.out + rest.out);
      HandleCounters(s, evs[0].ev, evs[0].now);
      RunRreqIdsConsecutive(first.state, evs[1..]);
      RreqIdsAppend(first.out, rest.out);
      var ids1 := RreqIds(first.out);
      var ids2 := RreqIds(rest.out);
      assert CountsUpFrom(ids1, s.rreqId);
      CountsUpAppend(ids1, ids2, s.rreqId);
      Add32Add32(s.rreqId, |ids1|, |ids2|);
      Add32Add32(s.myHseqno, |ids1|, |ids2|);
    }
  }

  /** From process start the two counters never drift apart. */
  lemma CountersInLockstep(evs: seq<Timed>)
    ensures Run(INIT, evs).state.rreqId == Run(INIT, evs).state.myHseqno
  {
    RunRreqIdsConsecutive(INIT, evs);
  }

  /** The rate-limit timer only moves forward, and only when a request is
      staged, to a full interval after the staging. */
  lemma HandleTimer(s: State, e: Timed)
    ensures var r := Handle(s, e.ev, e.now);
            && (Stages(s, e) ==> s.nextTime.deadline <= e.now
                                 && r.state.nextTime.deadline == e.now + RREQ_INTERVAL)
            && (!Stages(s, e) ==> r.state.nextTime == s.nextTime)
  {
  }

  /** Every reading in `st` is at or after `deadline`, and consecutive
      readings are at least `RREQ_INTERVAL` apart. */
  predicate SpacedFrom(st: seq<nat>, deadline: nat) {
    && (forall i :: 0 <= i < |st| ==> deadline <= st[i])
    && (forall i :: 0 < i < |st| ==> st[i - 1] + RREQ_INTERVAL <= st[i])
  }

  /** Route requests are staged at least `RREQ_INTERVAL` ticks apart, and
      never before the timer's current deadline, whatever else happens in
      between and however the caller's clock readings are ordered. */
  lemma {:induction false} StagingsAreSpaced(s: State, evs: seq<Timed>)
    ensures SpacedFrom(StageTimes(s, evs), s.nextTime.deadline)
    decreases |evs|
  {
    if evs != [] {
      var e := evs[0];
      var first := Handle(s, e.ev, e.now);
      HandleTimer(s, e);
      StagingsAreSpaced(first.state, evs[1..]);
      var st := StageTimes(s, evs);
      var rest := StageTimes(first.state, evs[1..]);
      assert SpacedFrom(rest, first.state.nextTime.deadline);
      if Stages(s, e) {
        assert st == [e.now] + rest;
        assert e.now + RREQ_INTERVAL == first.state.nextTime.deadline;
        forall i | 0 < i < |st|
          ensures st[i - 1] + RREQ_INTERVAL <= st[i]
        {
          if i > 1 {
            assert st[i - 1] == rest[i - 2] && st[i] == rest[i - 1];
          } else {
            assert st[0] == e.now && st[1] == rest[0];
          }
        }
      } else {
        assert st == rest;
        assert first.state.nextTime == s.nextTime;
      }
    }
  }

  function Pending(s: State): nat {
    if s.command == CommandSendRreq then 1 else 0
  }

  /** The number of direct `aodv_send_rreq` calls among `evs`. */
  function DirectRreqs(evs: seq<Timed>): nat
    decreases |evs|
  {
    if evs == [] then 0
    else (if evs[0].ev.RreqSendCalled? then 1 else 0) + DirectRreqs(evs[1..])
  }

  lemma HandleRreqBudget(s: State, e: Timed)
    ensures var r := Handle(s, e.ev, e.now);
            |RreqIds(r.out)| + Pending(r.state)
            <= (if Stages(s, e) then 1 else 0) + (if e.ev.RreqSendCalled? then 1 else 0) + Pending(s)
  {
    var r := Handle(s, e.ev, e.now);
    if e.ev.Polled? || e.ev.RreqSendCalled? {
      HandleCounters(s, e.ev, e.now);
    } else if e.ev.RouteRequested? {
      assert r.out == [];
    } else if e.ev.DestUnreachable? {
      assert r.out == [];
    }
  }

  /** Every RREQ a run sends answers a route request staged during the run,
      one pending when it began, or a direct call of `aodv_send_rreq`: no
      RREQ is ever sent unasked, and staged requests are never sent twice. */
  lemma {:induction false} RreqsAreStaged(s: State, evs: seq<Timed>)
    ensures |RreqIds(Run(s, evs).out)| + Pending(Run(s, evs).state)
            <= |StageTimes(s, evs)| + DirectRreqs(evs) + Pending(s)
    decreases |evs|
  {
    if evs != [] {
      var first := Handle(s, evs[0].ev, evs[0].now);
      var rest := Run(first.state, evs[1..]);
      HandleRreqBudget(s, evs[0]);
      RreqsAreStaged(first.state, evs[1..]);
      RreqIdsAppend(first.out, rest.out);
    }
  }

  /** A direct call of `aodv_send_rreq` sends a RREQ at once, whatever the
      rate-limit timer and the command slot say, and leaves both alone. */
  lemma DirectRreqBypassesGate(s: State, addr: Addr, now: nat)
    ensures var r := Handle(s, RreqSendCalled(addr), now);
            && RreqIds(r.out) == [s.rreqId]
            && r.out[0].msg.destAddr == addr
            && r.state.command == s.command && r.state.nextTime == s.nextTime
  {
  }

  /** The first route request of a freshly started node: it is staged, and
      the next poll turn sends a RREQ flagged "unknown sequence number" with
      request id 0 and own sequence number 0, leaving both counters at 1. */
  lemma ColdStartDiscovery(b: Addr, now: nat)
    ensures var q := RequestRouteTo(INIT, b, now);
            && q.route.None?
            && q.state.command == CommandSendRreq && q.state.rreqAddr == b
            && var p := Poll(q.state);
               && |p.out| == 1 && p.out[0].Multicast? && p.out[0].msg.Rreq?
               && p.out[0].msg.destAddr == b
               && p.out[0].msg.flags == RREQ_FLAG_UNKSEQNO
               && Htonl(p.out[0].msg.rreqId) == 0 && Htonl(p.out[0].msg.origSeqno) == 0
               && p.state.rreqId == 1 && p.state.myHseqno == 1
               && p.state.command == CommandNone
  {
    var q := RequestRouteTo(INIT, b, now);
    assert Lookup(q.state.table, b).None?;
  }

  /** A second request for an unknown destination inside the interval is
      refused and changes nothing, even after the first has been sent. */
  lemma SecondRequestRateLimited(s: State, h1: Addr, t1: nat, h2: Addr, t2: nat)
    requires RequestRouteTo(s, h1, t1).state.command != s.command
    requires t1 <= t2 < t1 + RREQ_INTERVAL
    requires Lookup(Poll(RequestRouteTo(s, h1, t1).state).state.table, h2).None?
    ensures var p := Poll(RequestRouteTo(s, h1, t1).state).state;
            RequestRouteTo(p, h2, t2) == Reply(p, None)
  {
  }

  /** A route error reported while a RREQ is pending replaces it: the next
      poll turn sends only the RERR and the counters do not move, while the
      timer armed for the lost RREQ keeps running. */
  lemma BadDestCancelsPendingRreq(s: State, host: Addr, now: nat, dest: Addr)
    requires RequestRouteTo(s, host, now).state.command != s.command
    ensures var q := RequestRouteTo(s, host, now).state;
            var p := Poll(BadDest(q, dest));
            && RreqIds(p.out) == []
            && |p.out| == 1 && p.out[0].msg.Rerr? && p.out[0].msg.unreachAddr == dest
            && p.state.rreqId == s.rreqId && p.state.myHseqno == s.myHseqno
            && p.state.nextTime == q.nextTime && !Expired(p.state.nextTime, now)
  {
  }

  /** A poll turn leaves nothing for the next one to do. */
  lemma PollIsIdempotent(s: State)
    ensures Poll(Poll(s).state) == Turn(Poll(s).state, [])
  {
  }
}

=== FILE: aodv_routing.dfy ===
/** The AODV control engine: the file-scope state of the routing module
    (counters, the single pending-command slot, the staged addresses, the
    rate-limit timer and the routing table) and the pure transitions over it
    that the exported functions and the process's poll step perform.

    Sending is modelled as producing a `Datagram` value; the transport that
    carries it is not part of the model. Time is a natural-number clock
    reading passed in by the caller. */
module AodvRouting {
  import opened Optional
  import opened Uip
  import opened SeqNo
  import opened AodvRt
  import opened AodvMsg

  /** Ticks per second of the platform clock. */
  const CLOCK_SECOND: nat := 128

  /** Minimum spacing of route requests: an eighth of a second, which keeps
      the node under the ten requests per second RFC 3561 allows. */
  const RREQ_INTERVAL: nat := CLOCK_SECOND / 8

  /** Lifetime, in host order, advertised in every RREP. */
  const ROUTE_TIMEOUT: u32 := 3000

  /** The pending-command slot. */
  datatype Command = CommandNone | CommandSendRreq | CommandSendRerr

  /** A one-shot timer, as the clock reading at which it expires. A
      zero-initialised timer has deadline 0 and so is already expired. */
  datatype Timer = Timer(deadline: nat)

  predicate Expired(t: Timer, now: nat) {
    t.deadline <= now
  }

  /** The engine's state. `badSeqno` is kept in network order. */
  datatype State = State(
    rreqId: u32,
    myHseqno: u32,
    command: Command,
    rreqAddr: Addr,
    badDest: Addr,
    badSeqno: u32,
    nextTime: Timer,
    table: Table)

  /** What the engine hands to the transport: a datagram to the all-nodes
      group, or one to a chosen next hop. */
  datatype Datagram = Multicast(msg: Msg) | Unicast(nextHop: Addr, msg: Msg)

  /** The state after a send, and the datagram sent. */
  datatype Emit = Emit(state: State, sent: Datagram)

  /** The state after a route query, and the route handed back (`None` for
      a NULL return). */
  datatype Reply = Reply(state: State, route: Option<RtEntry>)

  /** The state after a scheduling turn, and the datagrams sent in it. */
  datatype Turn = Turn(state: State, out: seq<Datagram>)

  /** The state at process start: every file-scope variable zero and the
      routing table empty. */
  const INIT: State := State(0, 0, CommandNone, UNSPECIFIED, UNSPECIFIED, 0, Timer(0), EMPTY)

  /** `last_known_seqno`: the sequence number of any entry for `h`, in
      network order, or 0 when the table has none. */
  function LastKnownSeqno(t: Table, h: Addr): (r: u32)
    ensures LookupAny(t, h).None? ==> r == 0
    ensures LookupAny(t, h).Some? ==> Htonl(r) == LookupAny(t, h).value.hseqno
    ensures LookupAny(t, h).Some? ==> LeBytes(r) == BeBytes(LookupAny(t, h).value.hseqno)
    ensures r == 0 <==> LookupAny(t, h).None? || LookupAny(t, h).value.hseqno == 0
  {
    match LookupAny(t, h)
    case None => 0
    case Some(e) =>
      HtonlInvolution(e.hseqno);
      HtonlZero(e.hseqno);
      Htonl(e.hseqno)
  }

  /** The RREQ `aodv_send_rreq` builds, with originator address `orig`, and
      the counter bookkeeping that goes with it: the message carries the
      current request id and own sequence number, and both counters then
      advance by one modulo 2^32. */
  function BuildRreq(s: State, addr: Addr, orig: Addr): (r: Emit)
    ensures r.sent.Multicast? && r.sent.msg.Rreq?
    ensures r.sent.msg.reserved == 0 && r.sent.msg.hopCount == 0
    ensures r.sent.msg.destAddr == addr && r.sent.msg.origAddr == orig
    ensures Htonl(r.sent.msg.rreqId) == s.rreqId && Htonl(r.sent.msg.origSeqno) == s.myHseqno
    ensures LookupAny(s.table, addr).Some? ==> Htonl(r.sent.msg.destSeqno) == LookupAny(s.table, addr).value.hseqno
    ensures LookupAny(s.table, addr).None? ==> r.sent.msg.destSeqno == 0
    ensures r.sent.msg.flags == RREQ_FLAG_UNKSEQNO <==> r.sent.msg.destSeqno == 0
    ensures r.sent.msg.flags == RREQ_FLAG_UNKSEQNO
            <==> LookupAny(s.table, addr).None? || LookupAny(s.table, addr).value.hseqno == 0
    ensures r.sent.msg.flags != RREQ_FLAG_UNKSEQNO ==> r.sent.msg.flags == 0
    ensures r.state.rreqId == Add32(s.rreqId, 1) && r.state.myHseqno == Add32(s.myHseqno, 1)
    ensures Scmp32(r.state.rreqId, s.rreqId) == 1 && Scmp32(r.state.myHseqno, s.myHseqno) == 1
    ensures r.state == s.(rreqId := r.state.rreqId, myHseqno := r.state.myHseqno)
  {
    var destSeqno := LastKnownSeqno(s.table, addr);
    var flags := if destSeqno == 0 then RREQ_FLAG_UNKSEQNO else 0;
    HtonlInvolution(s.rreqId);
    HtonlInvolution(s.myHseqno);
    ScmpSuccessor(s.rreqId);
    ScmpSuccessor(s.myHseqno);
    var m := Rreq(flags, 0, 0, Htonl(s.rreqId), addr, destSeqno, orig, Htonl(s.myHseqno));
    Emit(s.(rreqId := Add32(s.rreqId, 1), myHseqno := Add32(s.myHseqno, 1)), Multicast(m))
  }

  /** `aodv_send_rreq` as written: the originator address is copied from the
      multicast connection's remote address, the all-nodes group. */
  function SendRreq(s: State, addr: Addr): (r: Emit)
    ensures r.sent.Multicast? && r.sent.msg.Rreq?
    ensures r.sent.msg.origAddr == ALL_NODES && IsMulticast(r.sent.msg.origAddr)
    ensures r.sent.msg.reserved == 0 && r.sent.msg.hopCount == 0
    ensures r.sent.msg.destAddr == addr
    ensures Htonl(r.sent.msg.rreqId) == s.rreqId && Htonl(r.sent.msg.origSeqno) == s.myHseqno
    ensures LookupAny(s.table, addr).Some? ==> Htonl(r.sent.msg.destSeqno) == LookupAny(s.table, addr).value.hseqno
    ensures LookupAny(s.table, addr).None? ==> r.sent.msg.destSeqno == 0
    ensures r.sent.msg.flags == RREQ_FLAG_UNKSEQNO <==> r.sent.msg.destSeqno == 0
    ensures r.sent.msg.flags == RREQ_FLAG_UNKSEQNO
            <==> LookupAny(s.table, addr).None? || LookupAny(s.table, addr).value.hseqno == 0
    ensures r.sent.msg.flags != RREQ_FLAG_UNKSEQNO ==> r.sent.msg.flags == 0
    ensures r.state.rreqId == Add32(s.rreqId, 1) && r.state.myHseqno == Add32(s.myHseqno, 1)
    ensures Scmp32(r.state.rreqId, s.rreqId) == 1 && Scmp32(r.state.myHseqno, s.myHseqno) == 1
    ensures r.state == s.(rreqId := r.state.rreqId, myHseqno := r.state.myHseqno)
  {
    BuildRreq(s, addr, ALL_NODES)
  }

  /** Two RREQs that agree in every field but the originator address. */
  predicate SameRreqExceptOrigin(a: Msg, b: Msg)
    requires a.Rreq? && b.Rreq?
  {
    && a.flags == b.flags && a.reserved == b.reserved && a.hopCount == b.hopCount
    && a.rreqId == b.rreqId && a.destAddr == b.destAddr && a.destSeqno == b.destSeqno
    && a.origSeqno == b.origSeqno
  }

  /** `aodv_send_rreq` with the originator address it evidently intends: the
      sending node's own address `self`, to which an RREP can be routed. */
  function SendRreqFrom(s: State, addr: Addr, self: Addr): (r: Emit)
    ensures r.sent.Multicast? && r.sent.msg.Rreq? && r.sent.msg.origAddr == self
    ensures r.sent.msg.destAddr == addr && r.sent.msg.hopCount == 0
    ensures Htonl(r.sent.msg.rreqId) == s.rreqId && Htonl(r.sent.msg.origSeqno) == s.myHseqno
    ensures r.state == SendRreq(s, addr).state
    ensures SameRreqExceptOrigin(r.sent.msg, SendRreq(s, addr).sent.msg)
  {
    BuildRreq(s, addr, self)
  }

  /** `aodv_send_rrep`: a RREP unicast to `nextHop`. The caller supplies
      `seqno` already in network order; `hopCount` is an `unsigned` that
      the `uint8_t` field truncates. No engine state is involved. */
  function SendRrep(dest: Addr, nextHop: Addr, orig: Addr, seqno: u32, hopCount: nat): (d: Datagram)
    ensures d.Unicast? && d.nextHop == nextHop && d.msg.Rrep?
    ensures d.msg.flags == 0 && d.msg.prefixSz == 0
    ensures d.msg.destAddr == dest && d.msg.origAddr == orig && d.msg.destSeqno == seqno
    ensures (d.msg.hopCount - hopCount) % 0x100 == 0
    ensures hopCount < 0x100 ==> d.msg.hopCount == hopCount
    ensures LeBytes(d.msg.lifetime) == BeBytes(ROUTE_TIMEOUT)
  {
    Unicast(nextHop, Rrep(0, 0, hopCount % 0x100, dest, seqno, orig, Htonl(ROUTE_TIMEOUT)))
  }

  /** `aodv_send_rerr`: a single-destination RERR to the all-nodes group.
      `seqno` is in network order. No engine state is involved. */
  function SendRerr(addr: Addr, seqno: u32): (d: Datagram)
    ensures d.Multicast? && d.msg.Rerr?
    ensures d.msg.flags == 0 && d.msg.reserved == 0 && d.msg.destCount == 1
    ensures d.msg.unreachAddr == addr && d.msg.unreachSeqno == seqno
  {
    Multicast(Rerr(0, 0, 1, addr, seqno))
  }

  /** `aodv_bad_dest`: marks any entry for `dest` broken, records `dest` and
      its last known sequence number, and stages a RERR, replacing whatever
      command was pending. */
  function BadDest(s: State, dest: Addr): (r: State)
    ensures r.command == CommandSendRerr && r.badDest == dest
    ensures r.badSeqno == LastKnownSeqno(s.table, dest)
    ensures LookupAny(s.table, dest).None? ==> r.badSeqno == 0 && r.table == s.table
    ensures LookupAny(s.table, dest).Some? ==>
              && Htonl(r.badSeqno) == LookupAny(s.table, dest).value.hseqno
              && LookupAny(r.table, dest) == Some(LookupAny(s.table, dest).value.(isBad := true))
    ensures Lookup(r.table, dest).None?
    ensures forall h :: h != dest ==> LookupAny(r.table, h) == LookupAny(s.table, h)
    ensures r == s.(command := r.command, badDest := r.badDest, badSeqno := r.badSeqno, table := r.table)
  {
    var seqno := LastKnownSeqno(s.table, dest);
    s.(table := MarkBad(s.table, dest), badSeqno := seqno, badDest := dest, command := CommandSendRerr)
  }

  /** `aodv_request_route_to`: a usable cached route is handed back at once
      and marked recently used; otherwise, unless the rate-limit timer is
      still running or a command is already pending, a RREQ for `host` is
      staged and the timer armed. Only a found route is ever returned. */
  function RequestRouteTo(s: State, host: Addr, now: nat): (r: Reply)
    ensures r.route == Lookup(s.table, host)
    ensures r.route.Some? ==>
              && r.state == s.(table := r.state.table)
              && r.state.table.entries == s.table.entries
              && r.state.table.touched == s.table.touched + [host]
    ensures r.route.None? && (!Expired(s.nextTime, now) || s.command != CommandNone) ==> r.state == s
    ensures r.route.None? && Expired(s.nextTime, now) && s.command == CommandNone ==>
              && r.state.command == CommandSendRreq && r.state.rreqAddr == host
              && r.state == s.(command := r.state.command, rreqAddr := r.state.rreqAddr, nextTime := r.state.nextTime)
              && (forall t :: now <= t < now + RREQ_INTERVAL ==> !Expired(r.state.nextTime, t))
              && Expired(r.state.nextTime, now + RREQ_INTERVAL)
    ensures r.state.command != s.command ==> r.route.None? && r.state.command == CommandSendRreq
  {
    match Lookup(s.table, host)
    case Some(e) => Reply(s.(table := Lru(s.table, host)), Some(e))
    case None =>
      if !Expired(s.nextTime, now) then Reply(s, None)
      else if s.command != CommandNone then Reply(s, None)
      else Reply(s.(rreqAddr := host, command := CommandSendRreq, nextTime := Timer(now + RREQ_INTERVAL)), None)
  }

  /** The poll branch of the process: carries out the pending command and
      clears the slot. A staged RREQ is sent only if no usable route to its
      target has appeared meanwhile. */
  function Poll(s: State): (r: Turn)
    ensures r.state.command == CommandNone
    ensures |r.out| <= 1
    ensures s.command == CommandNone ==> r == Turn(s, [])
    ensures s.command == CommandSendRerr ==>
              r == Turn(s.(command := CommandNone), [SendRerr(s.badDest, s.badSeqno)])
    ensures s.command == CommandSendRreq && Lookup(s.table, s.rreqAddr).Some? ==>
              r == Turn(s.(command := CommandNone), [])
    ensures s.command == CommandSendRreq && Lookup(s.table, s.rreqAddr).None? ==>
              var e := SendRreq(s, s.rreqAddr);
              r == Turn(e.state.(command := CommandNone), [e.sent])
    ensures (exists i :: 0 <= i < |r.out| && r.out[i].msg.Rreq?)
            <==> s.command == CommandSendRreq && Lookup(s.table, s.rreqAddr).None?
    ensures r.state.rreqId != s.rreqId ==> Scmp32(r.state.rreqId, s.rreqId) == 1
  {
    match s.command
    case CommandSendRreq =>
      if Lookup(s.table, s.rreqAddr).None? then
        var e := SendRreq(s, s.rreqAddr);
        assert [e.sent][0].msg.Rreq?;
        Turn(e.state.(command := CommandNone), [e.sent])
      else
        Turn(s.(command := CommandNone), [])
    case CommandSendRerr =>
      Turn(s.(command := CommandNone), [SendRerr(s.badDest, s.badSeqno)])
    case CommandNone =>
      Turn(s, [])
  }

  /** The exit handler of the process: the command slot is cleared and the
      routing table flushed. */
  function Exit(s: State): (r: State)
    ensures r.command == CommandNone
    ensures forall h :: LookupAny(r.table, h).None? && Lookup(r.table, h).None?
    ensures r == s.(command := CommandNone, table := r.table)
  {
    s.(command := CommandNone, table := FlushAll(s.table))
  }
}

=== FILE: aodv_rt.dfy ===
/** The routing table the engine consults. Its implementation (insertion,
    expiry, least-recently-used eviction) is not part of this model: the table
    is a map from destination to entry, and the operations below carry only
    the properties the engine relies on. */
module AodvRt {
  import opened Optional
  import opened Uip

  /** A routing-table entry as the engine sees it: the destination's
      sequence number in host order and whether the route is known broken. */
  datatype RtEntry = RtEntry(hseqno: u32, isBad: bool)

  /** The entries, plus the record of every `aodv_rt_lru` call made on the
      table, most recent last. */
  datatype Table = Table(entries: map<Addr, RtEntry>, touched: seq<Addr>)

  const EMPTY: Table := Table(map[], [])

  /** `aodv_rt_lookup_any`: the entry for `h`, usable or not. */
  function LookupAny(t: Table, h: Addr): (r: Option<RtEntry>)
    ensures r.Some? <==> h in t.entries
    ensures r.Some? ==> r.value == t.entries[h]
  {
    if h in t.entries then Some(t.entries[h]) else None
  }

  /** `aodv_rt_lookup`: the entry for `h` when it is usable. A usable entry
      is also the one `aodv_rt_lookup_any` returns. */
  function Lookup(t: Table, h: Addr): (r: Option<RtEntry>)
    ensures r.Some? ==> LookupAny(t, h) == r
    ensures r.Some? ==> !r.value.isBad
    ensures LookupAny(t, h).Some? && !LookupAny(t, h).value.isBad ==> r.Some?
  {
    if h in t.entries && !t.entries[h].isBad then Some(t.entries[h]) else None
  }

  /** `aodv_rt_lru`: marks `h` most recently used; no entry changes. */
  function Lru(t: Table, h: Addr): (r: Table)
    ensures r.entries == t.entries
    ensures |r.touched| == |t.touched| + 1 && r.touched[|t.touched|] == h
    ensures r.touched[..|t.touched|] == t.touched
  {
    Table(t.entries, t.touched + [h])
  }

  /** `rt->is_bad = 1` on the entry for `h`, when there is one. */
  function MarkBad(t: Table, h: Addr): (r: Table)
    ensures r.entries.Keys == t.entries.Keys
    ensures h in t.entries ==> r.entries[h] == t.entries[h].(isBad := true)
    ensures forall g :: g in t.entries && g != h ==> r.entries[g] == t.entries[g]
    ensures r.touched == t.touched
  {
    if h in t.entries then Table(t.entries[h := t.entries[h].(isBad := true)], t.touched)
    else t
  }

  /** `aodv_rt_flush_all`: afterwards no lookup finds anything. */
  function FlushAll(t: Table): (r: Table)
    ensures forall h :: LookupAny(r, h).None?
  {
    Table(map[], t.touched)
  }
}

=== FILE: aodv_transit.dfy ===
/** What a peer running the same engine makes of the datagrams this engine
    sends: the bytes on the wire, and the verdict of the peer's inbound
    dispatcher on them. */
module AodvTransit {
  import opened Optional
  import opened Uip
  import opened AodvRt
  import opened AodvMsg
  import opened AodvInput
  import opened AodvRouting

  /** A sent RREQ is accepted by the peer and read back field for field. */
  lemma RreqTransit(s: State, addr: Addr)
    ensures var m := SendRreq(s, addr).sent.msg;
            HandleIncomingPacket(Some(Encode(m))) == Accepted(m)
  {
    var m := SendRreq(s, addr).sent.msg;
    ViewEncodeRreq(m, []);
    assert Encode(m) + [] == Encode(m);
  }

  /** A word whose byte swap is `x` is stored as the big-endian image of `x`. */
  lemma StoredBigEndian(y: u32, x: u32)
    requires Htonl(y) == x
    ensures LeBytes(y) == BeBytes(x)
  {
    HtonlInvolution(y);
  }

  /** On the wire a RREQ's request id and originator sequence number are the
      big-endian images of the sender's counters before the send, and its
      destination sequence number that of the last known one (zero bytes
      when the destination is unknown). */
  lemma RreqWireOrder(s: State, addr: Addr)
    ensures var w := Encode(SendRreq(s, addr).sent.msg);
            && w[4..8] == BeBytes(s.rreqId)
            && w[44..48] == BeBytes(s.myHseqno)
            && w[8..24] == addr
            && (LookupAny(s.table, addr).Some? ==> w[24..28] == BeBytes(LookupAny(s.table, addr).value.hseqno))
            && (LookupAny(s.table, addr).None? ==> w[24..28] == [0, 0, 0, 0])
  {
    var m := SendRreq(s, addr).sent.msg;
    RreqFields(m);
    StoredBigEndian(m.rreqId, s.rreqId);
    StoredBigEndian(m.origSeqno, s.myHseqno);
    if LookupAny(s.table, addr).Some? {
      StoredBigEndian(m.destSeqno, LookupAny(s.table, addr).value.hseqno);
    } else {
      assert LeBytes(0) == [0, 0, 0, 0];
    }
  }

  /** A sent RREP is accepted by the peer and read back field for field; its
      lifetime travels big-endian. */
  lemma RrepTransit(dest: Addr, nextHop: Addr, orig: Addr, seqno: u32, hopCount: nat)
    ensures var m := SendRrep(dest, nextHop, orig, seqno, hopCount).msg;
            var w := Encode(m);
            && HandleIncomingPacket(Some(w)) == Accepted(m)
            && w[40..44] == BeBytes(ROUTE_TIMEOUT)
            && w[3] == hopCount % 0x100
  {
    var m := SendRrep(dest, nextHop, orig, seqno, hopCount).msg;
    ViewEncodeRrep(m, []);
    assert Encode(m) + [] == Encode(m);
  }

  /** The route error this engine sends is dropped by every peer running
      the same code, whatever it names. */
  lemma RerrDroppedAsWritten(addr: Addr, seqno: u32)
    ensures HandleIncomingPacket(Some(Encode(SendRerr(addr, seqno).msg))) == Dropped(WrongType)
  {
  }

  /** With the corrected type check the peer accepts it and reads back the
      unreachable destination and its sequence number. */
  lemma RerrTransitCorrected(addr: Addr, seqno: u32)
    ensures var m := SendRerr(addr, seqno).msg;
            && HandleIncomingPacketCorrected(Some(Encode(m))) == Accepted(m)
            && m.unreachAddr == addr && m.unreachSeqno == seqno
  {
    var m := SendRerr(addr, seqno).msg;
    ViewEncodeRerr(m, []);
    assert Encode(m) + [] == Encode(m);
  }

  /** Reporting a destination unreachable and then polling puts on the wire
      a RERR naming it with its last known sequence number big-endian, or
      zero bytes when the table held no entry for it. */
  lemma ReportedRerrOnWire(s: State, dest: Addr)
    ensures var p := Poll(BadDest(s, dest));
            && |p.out| == 1 && p.out[0].Multicast? && p.out[0].msg.Rerr?
            && var w := Encode(p.out[0].msg);
               && w[4..20] == dest
               && (LookupAny(s.table, dest).Some? ==> w[20..24] == BeBytes(LookupAny(s.table, dest).value.hseqno))
               && (LookupAny(s.table, dest).None? ==> w[20..24] == [0, 0, 0, 0])
  {
    assert LeBytes(0) == [0, 0, 0, 0];
  }

  /** The originator address of every RREQ sent is the all-nodes group, so
      it is never the address of the sending node; the corrected builder
      puts the node's own address there and changes nothing else. */
  lemma RreqOriginatorIsGroup(s: State, addr: Addr, self: Addr)
    requires !IsMulticast(self)
    ensures SendRreq(s, addr).sent.msg.origAddr != self
    ensures SendRreqFrom(s, addr, self).sent.msg.origAddr == self
  {
  }
}

=== FILE: seqno.dfy ===
/** Sequence-number comparison: the `SCMP32` macro of the AODV engine, the
    wrap-around comparison of section 6.1 of RFC 3561. A destination sequence
    number `a` is fresher than `b` when `SCMP32(a, b) > 0`. */
module SeqNo {
  import opened Uip

  const HALF: int := 0x8000_0000

  /** `(int32_t)x`: the two's-complement reading of a 32-bit pattern. */
  function ToInt32(x: u32): (r: int)
    ensures -HALF <= r < HALF
    ensures (r - x) % U32_MODULUS == 0
  {
    if x < HALF then x else x - U32_MODULUS
  }

  /** `SCMP32(a, b)` with the subtraction wrapping in 32 bits: the one value of
      `int32_t` congruent to `a - b` modulo 2^32. */
  function Scmp32(a: u32, b: u32): (r: int)
    ensures -HALF <= r < HALF
    ensures (r - (a - b)) % U32_MODULUS == 0
  {
    ToInt32((a - b) % U32_MODULUS)
  }

  /** Reference reading of freshness: `a` lies ahead of `b` by at least one
      and by less than half of the sequence-number space. */
  ghost predicate Ahead(a: u32, b: u32) {
    exists k: nat {:trigger Add32(b, k)} :: 0 < k < HALF && Add32(b, k) == a
  }

  /** `SCMP32(a, b) > 0` holds exactly when `a` is ahead of `b`. */
  lemma ScmpPositiveIffAhead(a: u32, b: u32)
    ensures Scmp32(a, b) > 0 <==> Ahead(a, b)
  {
    var d := (a - b) % U32_MODULUS;
    assert Add32(b, d) == a;
    if Ahead(a, b) {
      var k: nat :| 0 < k < HALF && Add32(b, k) == a;
      assert (a - b - k) % U32_MODULUS == 0;
      assert d == k;
    }
  }

  /** A number is never fresher than itself. */
  lemma ScmpSelf(a: u32)
    ensures Scmp32(a, a) == 0
  {
  }

  /** The wrap-around case of RFC 3561: 2 is fresher than 0xFFFFFFFE. */
  lemma ScmpAcrossWrap()
    ensures Scmp32(2, 0xFFFF_FFFE) == 4
    ensures Scmp32(0xFFFF_FFFE, 2) == -4
  {
  }

  /** Outside the half-way tie, swapping the arguments negates the result,
      so of two distinct numbers exactly one is the fresher. */
  lemma ScmpAntisymmetric(a: u32, b: u32)
    requires (a - b) % U32_MODULUS != HALF
    ensures Scmp32(b, a) == -Scmp32(a, b)
    ensures a != b ==> (Scmp32(a, b) > 0 <==> !(Scmp32(b, a) > 0))
  {
    var d := (a - b) % U32_MODULUS;
    if d == 0 {
      assert a == b;
    } else {
      assert (b - a) % U32_MODULUS == U32_MODULUS - d;
    }
  }

  /** Two numbers half the space apart: each compares below the other, so
      neither is fresher. */
  lemma ScmpHalfwayTie(a: u32, b: u32)
    requires (a - b) % U32_MODULUS == HALF
    ensures Scmp32(a, b) == -HALF && Scmp32(b, a) == -HALF
  {
    assert (b - a) % U32_MODULUS == HALF;
  }

  /** Incrementing a counter, across the wrap too, yields a fresher number. */
  lemma ScmpSuccessor(a: u32)
    ensures Scmp32(Add32(a, 1), a) == 1
  {
  }

  /** Conversely, `SCMP32(a, b) == 1` only when `a` is the successor of `b`. */
  lemma ScmpOneIsSuccessor(a: u32, b: u32)
    requires Scmp32(a, b) == 1
    ensures a == Add32(b, 1)
  {
    assert (1 - (a - b)) % U32_MODULUS == 0;
  }

  /** Below 2^31 the comparison agrees with the plain difference. */
  lemma ScmpAgreesBelowHalf(a: u32, b: u32)
    requires a < HALF && b < HALF
    ensures Scmp32(a, b) == a - b
  {
  }

  /** `SCMP32` as the macro is written: it subtracts the two signed casts in
      `int32_t`, so the exact difference below may fall outside `int32_t`,
      which is signed overflow in C. */
  function Scmp32AsWritten(a: u32, b: u32): (r: int)
    ensures -U32_MODULUS < r < U32_MODULUS
    ensures (r - (a - b)) % U32_MODULUS == 0
  {
    ToInt32(a) - ToInt32(b)
  }

  /** The macro overflows for `SCMP32(0x80000000, 1)`: the exact difference
      is one below the least `int32_t`. For adjacent numbers across the sign
      boundary it is far below, where the wrapping reading gives 1. */
  lemma Scmp32AsWrittenOverflows()
    ensures Scmp32AsWritten(0x8000_0000, 1) == -HALF - 1
    ensures Scmp32(0x8000_0000, 1) == HALF - 1
    ensures Scmp32AsWritten(0x8000_0000, 0x7FFF_FFFF) == -U32_MODULUS + 1
    ensures Scmp32(0x8000_0000, 0x7FFF_FFFF) == 1
  {
  }

  /** Whenever the macro does not overflow it computes `Scmp32`. */
  lemma Scmp32AsWrittenAgrees(a: u32, b: u32)
    requires -HALF <= Scmp32AsWritten(a, b) < HALF
    ensures Scmp32AsWritten(a, b) == Scmp32(a, b)
  {
  }
}

=== FILE: uip.dfy ===
/** The optional value the routing table hands back in place of a C pointer
    that may be NULL. */
module Optional {
  datatype Option<+T> = None | Some(value: T)
}

/** The uIP primitives the AODV engine relies on: bytes, 32-bit words with
    wrap-around, 128-bit IPv6 addresses and the host/network byte-order swap.

    The host is taken to be little-endian (the usual case for the targets the
    engine runs on), so `uip_htonl` swaps the four bytes of a word. */
module Uip {

  type byte = x: int | 0 <= x < 0x100

  type u32 = x: int | 0 <= x < 0x1_0000_0000

  const U32_MODULUS: int := 0x1_0000_0000

  /** An IPv6 address (`uip_ipaddr_t`): sixteen bytes. */
  type Addr = a: seq<byte> | |a| == 16 witness [0, 0, 0, 0, 0, 0, 0, 0, 0, 0, 0, 0, 0, 0, 0, 0]

  /** The all-zero address that a zero-initialised `uip_ipaddr_t` holds. */
  const UNSPECIFIED: Addr := [0, 0, 0, 0, 0, 0, 0, 0, 0, 0, 0, 0, 0, 0, 0, 0]

  /** ff02::1, the link-local all-nodes group: the remote address of a
      connection opened with `udp_broadcast_new`. */
  const ALL_NODES: Addr := [0xff, 0x02, 0, 0, 0, 0, 0, 0, 0, 0, 0, 0, 0, 0, 0, 0x01]

  /** IPv6 multicast addresses are those whose first byte is 0xff. */
  predicate IsMulticast(a: Addr) {
    a[0] == 0xff
  }

  /** `x += k` on a `uint32_t`: the sum reduced modulo 2^32. */
  function Add32(x: u32, k: nat): (r: u32)
    ensures (r - x - k) % U32_MODULUS == 0
    ensures x + k < U32_MODULUS ==> r == x + k
  {
    (x + k) % U32_MODULUS
  }

  /** The four bytes of `x`, most significant first (network byte order). */
  function BeBytes(x: u32): (b: seq<byte>)
    ensures |b| == 4
  {
    var q1 := x / 0x100;
    var q2 := q1 / 0x100;
    [q2 / 0x100, q2 % 0x100, q1 % 0x100, x % 0x100]
  }

  /** The word whose most significant byte comes first in `b`. */
  function FromBe(b: seq<byte>): u32
    requires |b| == 4
  {
    ((b[0] as int * 0x100 + b[1]) * 0x100 + b[2]) * 0x100 + b[3]
  }

  /** The four bytes of `x` as a little-endian host stores them in memory. */
  function LeBytes(x: u32): (b: seq<byte>)
    ensures |b| == 4
  {
    var be := BeBytes(x);
    [be[3], be[2], be[1], be[0]]
  }

  /** The word a little-endian host reads from the four bytes `b`. */
  function FromLe(b: seq<byte>): u32
    requires |b| == 4
  {
    FromBe([b[3], b[2], b[1], b[0]])
  }

  lemma {:induction false} FromBeBeBytes(x: u32)
    ensures FromBe(BeBytes(x)) == x
  {
    var q1 := x / 0x100;
    var q2 := q1 / 0x100;
    assert x == q1 * 0x100 + x % 0x100;
    assert q1 == q2 * 0x100 + q1 % 0x100;
    assert q2 == (q2 / 0x100) * 0x100 + q2 % 0x100;
  }

  lemma {:induction false} BeBytesFromBe(b: seq<byte>)
    requires |b| == 4
    ensures BeBytes(FromBe(b)) == b
  {
    var x := FromBe(b);
    var q2 := b[0] as int * 0x100 + b[1];
    var q1 := q2 * 0x100 + b[2];
    assert x == q1 * 0x100 + b[3];
    assert x / 0x100 == q1 && x % 0x100 == b[3];
    assert q1 / 0x100 == q2 && q1 % 0x100 == b[2];
    assert q2 / 0x100 == b[0] && q2 % 0x100 == b[1];
  }

  /** Reading back what a little-endian host stored gives the same word. */
  lemma FromLeLeBytes(x: u32)
    ensures FromLe(LeBytes(x)) == x
  {
    var be := BeBytes(x);
    assert [be[0], be[1], be[2], be[3]] == be;
    FromBeBeBytes(x);
  }

  /** Storing a word read from memory reproduces the bytes it was read from. */
  lemma LeBytesFromLe(b: seq<byte>)
    requires |b| == 4
    ensures LeBytes(FromLe(b)) == b
  {
    BeBytesFromBe([b[3], b[2], b[1], b[0]]);
  }

  /** `uip_htonl` on a little-endian host: the word whose memory image is the
      network-order (big-endian) image of `x`. */
  function Htonl(x: u32): (r: u32)
    ensures LeBytes(r) == BeBytes(x)
  {
    LeBytesFromLe(BeBytes(x));
    FromLe(BeBytes(x))
  }

  /** Swapping twice is the identity, so `uip_ntohl` is `uip_htonl`. */
  lemma HtonlInvolution(x: u32)
    ensures Htonl(Htonl(x)) == x
  {
    var y := Htonl(x);
    var z := Htonl(y);
    assert LeBytes(z) == BeBytes(y);
    var be := BeBytes(x);
    assert LeBytes(y) == be;
    assert BeBytes(y) == [be[3], be[2], be[1], be[0]];
    FromLeLeBytes(z);
    FromLeLeBytes(x);
    assert LeBytes(z) == LeBytes(x);
  }

  /** Zero is the only word whose byte-swapped form is zero. */
  lemma HtonlZero(x: u32)
    ensures Htonl(x) == 0 <==> x == 0
  {
    if Htonl(x) == 0 {
      assert BeBytes(x) == LeBytes(0) == [0, 0, 0, 0];
      FromBeBeBytes(x);
    }
    if x == 0 {
      assert LeBytes(Htonl(0)) == [0, 0, 0, 0] == LeBytes(0);
      FromLeLeBytes(Htonl(0));
      FromLeLeBytes(0);
    }
  }
}
